=== FILE: README.md ===
# Time-slot booking service: a Dafny model

This project models the slot-booking logic of a small NestJS service in which
users reserve half-hour slots of a working day (10:00-18:00). The service
validates a requested time range and date, checks that the user exists,
rejects a request that conflicts with the user's existing reservations on that
day, lets only a reservation's creator or owner move or delete it, and lists
the free half-hour slots of a day by removing booked slots from a fixed grid.

The model is functional. A reservation is a `TimeSlot` record with the
entity's fields (id, date, startTime, endTime, isBlocked, userId, createdBy).
The time-slot table is a `Store`: a map from id to record plus the next value
of the id sequence. The set of known users is a `set<int>`, and "now" is an
injected `Instant` (day number and milliseconds into the day). Every mutating
operation returns a `Reply`: the table after the call and either the result or
one of the errors `InvalidTimeSlot`, `UserNotFound`, `PastDateBooking`,
`TimeSlotOverlap`, `TimeSlotNotFound`, `PermissionDenied`.

Modules, leaf first:

- `Wrappers`: `Option` and `Result`.
- `Sequences`: order-preserving subsequences.
- `Calendar`: times as (hour, minute), minute-of-day `hour * 60 + minute`, the
  time-range validator, and the booking-date check.
- `Overlap`: the service's conflict rule on minutes of the day.
- `Store`: the record, the table, lookup by id, and the "blocked slots of a
  user on a day" query.
- `Grid`: the sixteen candidate slots of a day.
- `Service`: `Create`, `UpdateTimeSlot`, `DeleteTimeSlot`, `GetAvailableSlots`.
- `ServiceProperties`: invariants and properties relating several calls.
- `Scenarios`: concrete runs, including a double booking the service accepts.

Behaviour of the code that the model keeps, including places where the
repository suggests other intentions:

- `GetAvailableSlots` has no date check
  (src/time-slot/time-slot.service.ts:223-256), although src/constants.ts:10
  defines an invalid-date message. The model therefore has no invalid-date
  error, and the function takes no clock.
- The overlap rule misses an existing reservation that lies strictly inside
  the requested range. Reservations of one user on one day can therefore share
  minutes (`Scenarios.DoubleBookingAccepted`).
- An update re-checks overlap against all of the owner's reservations on the
  new date, the updated one included (src/time-slot/time-slot.service.ts:156-167).
  Moving a reservation, on its current date, to a start inside its own
  current interval is rejected.
- An update writes the request's `createdBy` (the acting user) into the
  record (src/time-slot/time-slot.service.ts:169).
- The message table in src/constants.ts:1-11 is unused. The service throws
  inline strings instead, for example at
  src/time-slot/time-slot.service.ts:91, 98, 102, 115 and 147.
  The model keeps only the error kinds.

`GetAvailableSlots` is a function of the table, the user set, the date and
the user, and returns no table, so two calls with no write in between give the
same answer. A failed write returns the table unchanged (the first `ensures`
of each mutating operation), and a successful create for another user or day
leaves the answer as it was (`ServiceProperties.CreateElsewhereKeepsAvailability`).

Minutes are not range-checked by the validator. For times whose minute lies
in [0, 60) the validator accepts exactly the half-hour aligned, non-empty
ranges inside 10:00-18:00 (`Calendar.ValidTimeRangeIsWorkingWindow`). Without
that, a range such as 10:00-17:180 passes although it ends at 20:00
(`Calendar.UncheckedMinutesLeaveWindow`).

## Model

| member | source | states |
|---|---|---|
| `Calendar.ValidTimeRange` | src/time-slot/time-slot.service.ts:18-43 | an accepted range has both hours in [10, 18], start before end, both ends on a half hour, and an end hour of 18 only with a minute of 0 or below (minutes are not range-checked, so 18:-30 passes) |
| `Calendar.ValidTimeRangeIsWorkingWindow` | src/time-slot/time-slot.service.ts:18-43 | for clock-shaped times the validator accepts exactly the half-hour aligned non-empty ranges within 10:00-18:00 |
| `Calendar.UncheckedMinutesLeaveWindow` | src/time-slot/time-slot.service.ts:20-37 | an unnormalised minute field lets a range ending at 20:00 pass the validator |
| `Calendar.ValidBookingDate` | src/time-slot/time-slot.service.ts:45-58 | after cutting both to midnight, a date is accepted iff it is today or later, whatever the current time of day |
| `Overlap.TouchingDoesNotOverlap` | src/time-slot/time-slot.service.ts:73-78 | intervals that only touch at either end do not conflict |
| `Overlap.IdenticalOverlaps` | src/time-slot/time-slot.service.ts:73-78 | a non-empty interval conflicts with itself |
| `Overlap.OverlapsCharacterised` | src/time-slot/time-slot.service.ts:73-78 | the rule fires iff the intervals share a minute and the existing one is not strictly inside the candidate; so it is sound |
| `Overlap.InsideBookingNotDetected` | src/time-slot/time-slot.service.ts:73-78 | 11:00-11:30 inside 10:00-12:00 shares minutes but is not detected |
| `Overlap.AlignedOverlapIsCover` | src/time-slot/time-slot.service.ts:248-254 | against a half-hour grid slot, an aligned booking conflicts iff it covers the slot |
| `Grid.HourSlots` | src/time-slot/time-slot.service.ts:196-218 | two contiguous half-hour slots per hour from the given hour to 18:00, starts at hour*60 + 30*i, unblocked, with the given date and user |
| `Grid.GenerateTimeSlots` | src/time-slot/time-slot.service.ts:193-221 | exactly 16 contiguous 30-minute slots, the i-th starting at 10:00 + 30*i, first at 10:00, last ending 18:00, all unblocked with the given date and user |
| `Grid.GridSlotsAreValidRanges` | src/time-slot/time-slot.service.ts:193-221 | every grid slot passes the time-range validator |
| `Grid.GridAscending` | src/time-slot/time-slot.service.ts:196-218 | grid start times strictly increase |
| `Overlap.Overlaps` | src/time-slot/time-slot.service.ts:73-78 | the conflict rule, shared by the query and the filter; characterised by `Overlap.OverlapsCharacterised` |
| `Store.BlockedSlotsInsert` | src/time-slot/time-slot.service.ts:66-70 | storing a record under a new id adds it to the user-and-day reservation query exactly when it is a reservation of that user on that day, and leaves the rest of the answer alone |
| `Service.Create` | src/time-slot/time-slot.service.ts:86-127 | checks in order time range, user, date, overlap with the first failure deciding the error; failure leaves the table unchanged; success adds one blocked record with the request's fields under a fresh id and leaves the others alone |
| `Service.UpdateTimeSlot` | src/time-slot/time-slot.service.ts:130-169 | checks in order time range, date, existence, permission, overlap, each failure giving its own error; failure leaves the table unchanged; success changes only that record's date, times and createdBy |
| `Service.DeleteTimeSlot` | src/time-slot/time-slot.service.ts:172-186 | missing id is not-found, a stranger is denied, failure leaves the table unchanged; success removes exactly that id |
| `Service.FilterFree` | src/time-slot/time-slot.service.ts:246-255 | keeps exactly the candidates no blocked slot conflicts with, as an order-preserving subsequence |
| `Service.GetAvailableSlots` | src/time-slot/time-slot.service.ts:223-256 | unknown user fails; otherwise an ordered subsequence of the grid holding exactly the slots no reservation of that user and day conflicts with, for any date |
| `ServiceProperties.CreatePreservesWellFormed` | src/time-slot/time-slot.service.ts:118-127 | a create keeps every record blocked, validated and under its own id below the sequence value |
| `ServiceProperties.UpdatePreservesWellFormed` | src/time-slot/time-slot.service.ts:130-169 | an update keeps the table well formed |
| `ServiceProperties.DeletePreservesWellFormed` | src/time-slot/time-slot.service.ts:172-190 | a delete keeps the table well formed |
| `ServiceProperties.CreateRespectsExistingBookings` | src/time-slot/time-slot.service.ts:105-116 | no earlier reservation of that user and day holds the new start or reaches the new end |
| `ServiceProperties.CreateTwiceOverlaps` | src/time-slot/time-slot.service.ts:105-125 | repeating a successful create request is rejected as an overlap |
| `ServiceProperties.UpdateSelfOverlapRejected` | src/time-slot/time-slot.service.ts:156-167 | moving a reservation to a start inside its own interval on the same date is rejected as an overlap |
| `ServiceProperties.UpdateInPlaceRejected` | src/time-slot/time-slot.service.ts:156-167 | re-submitting a reservation's own date and times is rejected as an overlap |
| `ServiceProperties.FindAfterUpdate` | src/time-slot/time-slot.service.ts:142-169 | after a successful update the lookup by id returns the old record with the request's date, times and acting user |
| `ServiceProperties.UpdateByOwnerRevokesCreator` | src/time-slot/time-slot.service.ts:150-169 | an update by the owner writes the owner into createdBy, so a creator who is not the owner can no longer modify or delete the record |
| `ServiceProperties.FindAfterDelete` | src/time-slot/time-slot.service.ts:173-186 | after a successful delete the lookup by id finds nothing |
| `ServiceProperties.DeleteTwiceNotFound` | src/time-slot/time-slot.service.ts:172-179 | after a successful delete, deleting the same id again is not-found for any actor |
| `ServiceProperties.DeletedIdNotReissued` | src/time-slot/time-slot.entity.ts:6-7 | a later create never receives a deleted id |
| `ServiceProperties.FilterKeepsFree` | src/time-slot/time-slot.service.ts:246-255 | with no conflicts the filter returns its input unchanged |
| `ServiceProperties.FilterFreeCounts` | src/time-slot/time-slot.service.ts:246-255 | the filter keeps every copy of a free candidate and no copy of a conflicting one |
| `ServiceProperties.AvailableWithoutBookings` | src/time-slot/time-slot.service.ts:223-256 | with no reservations that day all 16 grid slots are returned |
| `ServiceProperties.SubsequenceAscending` | src/time-slot/time-slot.service.ts:246-255 | filtering an ascending sequence keeps it ascending |
| `ServiceProperties.AvailableAscending` | src/time-slot/time-slot.service.ts:223-256 | free slots come back in ascending start order |
| `ServiceProperties.AvailableIsUncovered` | src/time-slot/time-slot.service.ts:235-255 | with validated reservations a grid slot is withheld iff some reservation covers it |
| `ServiceProperties.CreateWithdrawsCoveredSlots` | src/time-slot/time-slot.service.ts:118-127 | after a create no grid slot starting inside the new reservation is offered |
| `ServiceProperties.CreateElsewhereKeepsAvailability` | src/time-slot/time-slot.service.ts:235-241 | a create for another user or day leaves this user's free slots unchanged |
| `Scenarios.OverlapBoundaryExamples` | src/time-slot/time-slot.service.ts:73-78 | 10:00-10:30 against 10:30-11:00 does not conflict; against 10:15-10:45 it does |
| `Scenarios.RejectedRequests` | src/time-slot/time-slot.service.ts:89-103 | a 09:30 start is an invalid slot; yesterday is a past-date booking |
| `Scenarios.DoubleBookingAccepted` | src/time-slot/time-slot.service.ts:105-127 | 11:00-11:30 then 10:00-12:00 both succeed, leaving two reservations that share minutes |
| `ServiceProperties.FilterAppend` | src/time-slot/time-slot.service.ts:246-255 | the filter distributes over concatenation |
| `Scenarios.TwoBookingsStored` | src/time-slot/time-slot.service.ts:118-127 | two successful creates leave exactly those two reservations for that user and day |
| `Scenarios.FilterTwoBookings` | src/time-slot/time-slot.service.ts:246-255 | reservations 10:00-10:30 and 14:00-14:30 remove exactly the first and ninth grid slots |
| `Scenarios.TwoBookingsLeaveFourteen` | src/time-slot/time-slot.service.ts:223-256 | after those two bookings the day offers the other 14 slots, in order |

## Left out

- Parsing of "HH:MM" strings with `split` and `Number`: the model takes hour and minute as integers. A field that becomes NaN makes the validator return false; such inputs are not representable here. Fractional hour or minute values are not modelled.
- Fields beyond the first two: the validator reads only the first two ':' fields (src/time-slot/time-slot.service.ts:20-21). "10:00:45" is validated as 10:00 but stored and compared with its seconds; the model has no seconds.
- Empty fields: `Number("")` is 0, so "10:" is validated as 10:00. The model takes the parsed integers and does not represent the raw string.
- Postgres' own parsing of `time` values: the request times are first bound as parameters of the overlap query (src/time-slot/time-slot.service.ts:66-81) and compared with the `time` column. Postgres refuses a time with an out-of-range minute (such as 17:180) there, before any write, so that request fails with a database error. `Service.Create` accepts the same request (`Calendar.UncheckedMinutesLeaveWindow`).
- The availability filter compares "HH:MM:SS" strings; the model compares minutes of the day, which agrees for zero-padded times with minutes in [0, 60).
- JavaScript `Date` and the server's local time zone: dates are day numbers and the clock is an injected instant. This hides three behaviours of the source:
  - `new Date("YYYY-MM-DD")` (src/time-slot/time-slot.service.ts:47) is midnight UTC. On a server west of UTC, `setHours(0, 0, 0, 0)` moves it to the previous local day, so a booking for today is refused.
  - The controller's `new Date(date)` (src/time-slot/time-slot.controller.ts:45) shifts the day of the availability query in the same way.
  - An unparseable date gives an Invalid Date, and `bookingDate < today` (src/time-slot/time-slot.service.ts:53) never rejects it.
- The `result.affected === 0` branch of delete: it is reachable only when another request deletes the same row concurrently.
- The race between the overlap check and the write, and every other form of concurrency: the model is sequential.
- The value returned by an update (the ORM's update summary): `UpdateTimeSlot` returns only the new table.
- Update bodies with fields beyond date, start, end and createdBy, which the ORM would also write.
- HTTP routing, dependency-injection wiring, configuration, DTO validation decorators, the user entity beyond its id, the unused message table, and logging.

=== FILE: calendar.dfy ===
/** The booking service's clock and calendar policy: the 10:00-18:00 working
    window, 30-minute alignment, and the "today or later" rule for dates. */
module Calendar {

  /** A time of day as the service splits it out of "HH:MM": an hour and a
      minute. Neither component is range-checked by the service. */
  datatype Time = Time(hour: int, minute: int)

  const OpeningHour: int := 10
  const ClosingHour: int := 18
  const SlotMinutes: int := 30

  /** Minute of the day, `hour * 60 + minute`, as the service computes it. */
  function Minutes(t: Time): int
  {
    t.hour * 60 + t.minute
  }

  /** A time whose minute is one a clock can show. */
  predicate WellFormedTime(t: Time)
  {
    0 <= t.minute < 60
  }

  /** The intended window, stated on minutes of the day: the range lies in
      [10:00, 18:00], is non-empty, and both ends sit on a half hour. */
  predicate InWorkingWindow(start: Time, end: Time)
  {
    && OpeningHour * 60 <= Minutes(start)
    && Minutes(start) < Minutes(end)
    && Minutes(end) <= ClosingHour * 60
    && Minutes(start) % SlotMinutes == 0
    && Minutes(end) % SlotMinutes == 0
  }

  /** The service's time-range validator. Both hours must lie in [10, 18], an
      end hour of 18 must have a minute of 0 or below (minutes are not
      range-checked), the duration must be positive, and the start
      minute-of-day and the duration must be multiples of 30. (`% 30 == 0`
      holds for the same integers under JavaScript's truncating remainder and
      Dafny's Euclidean one.) */
  function ValidTimeRange(start: Time, end: Time): (ok: bool)
    ensures ok ==> OpeningHour <= start.hour <= ClosingHour && OpeningHour <= end.hour <= ClosingHour
    ensures ok ==> Minutes(start) < Minutes(end)
    ensures ok ==> Minutes(start) % SlotMinutes == 0 && Minutes(end) % SlotMinutes == 0
    ensures ok && end.hour == ClosingHour ==> end.minute <= 0
  {
    if start.hour < OpeningHour || start.hour > ClosingHour
       || end.hour < OpeningHour || end.hour > ClosingHour then
      false
    else if end.hour == ClosingHour && end.minute > 0 then
      false
    else
      var startMinutes := Minutes(start);
      var endMinutes := Minutes(end);
      var duration := endMinutes - startMinutes;
      duration > 0 && startMinutes % SlotMinutes == 0 && duration % SlotMinutes == 0
  }

  /** For clock-shaped times the validator accepts exactly the half-hour
      aligned, non-empty ranges inside 10:00-18:00. */
  lemma ValidTimeRangeIsWorkingWindow(start: Time, end: Time)
    requires WellFormedTime(start) && WellFormedTime(end)
    ensures ValidTimeRange(start, end) <==> InWorkingWindow(start, end)
  {
    if InWorkingWindow(start, end) {
      assert OpeningHour <= start.hour;
      assert OpeningHour <= end.hour <= ClosingHour;
      assert (Minutes(end) - Minutes(start)) % SlotMinutes == 0;
    }
  }

  /** Minutes are not range-checked, so a range written with an overlong
      minute field passes the validator although it ends at 20:00. */
  lemma UncheckedMinutesLeaveWindow()
    ensures ValidTimeRange(Time(10, 0), Time(17, 180))
    ensures !InWorkingWindow(Time(10, 0), Time(17, 180))
  {
  }

  /** A point in time on the server's local calendar: a day number and the
      milliseconds elapsed since that day's midnight. */
  datatype Instant = Instant(day: int, msOfDay: int)

  const MsPerDay: int := 86_400_000

  /** Milliseconds since the day-number origin. */
  function EpochMs(i: Instant): int
  {
    i.day * MsPerDay + i.msOfDay
  }

  /** `setHours(0, 0, 0, 0)`: the same day at midnight. */
  function StartOfDay(i: Instant): Instant
  {
    Instant(i.day, 0)
  }

  /** The booking-date check: both the booking date and the current instant
      are cut back to midnight and compared; only a strictly earlier day is
      rejected, whatever the time of day `now` carries. */
  function ValidBookingDate(date: int, now: Instant): (ok: bool)
    ensures ok <==> date >= now.day
  {
    var bookingDate := StartOfDay(Instant(date, 0));
    var today := StartOfDay(now);
    !(EpochMs(bookingDate) < EpochMs(today))
  }
}

=== FILE: grid.dfy ===
/** The canonical slot grid: every half hour of the working day for one user
    on one date, in ascending order. */
module Grid {
  import opened Calendar

  /** A generated, unsaved slot: it has no id and no creator. The objects the
      service builds carry the owner under the key `user_id`, not the entity's
      `userId`; the model keeps one field for both. */
  datatype Candidate = Candidate(date: int, startTime: Time, endTime: Time, userId: int, isBlocked: bool)

  const GridSize: int := 16

  /** The two half-hour slots of each hour from `hour` up to closing time:
      hh:00-hh:30 and hh:30-(hh+1):00. */
  function HourSlots(hour: int, date: int, userId: int): (r: seq<Candidate>)
    requires OpeningHour <= hour <= ClosingHour
    ensures |r| == 2 * (ClosingHour - hour)
    ensures forall i :: 0 <= i < |r| ==> Minutes(r[i].startTime) == hour * 60 + SlotMinutes * i
    ensures forall i :: 0 <= i < |r| ==> Minutes(r[i].endTime) == Minutes(r[i].startTime) + SlotMinutes
    ensures forall i :: 0 <= i < |r| ==> WellFormedTime(r[i].startTime) && WellFormedTime(r[i].endTime)
    ensures forall i :: 0 <= i < |r| ==> r[i].date == date && r[i].userId == userId && !r[i].isBlocked
    ensures forall i :: 0 < i < |r| ==> r[i - 1].endTime == r[i].startTime
    decreases ClosingHour - hour
  {
    if hour >= ClosingHour then
      []
    else
      [Candidate(date, Time(hour, 0), Time(hour, 30), userId, false),
       Candidate(date, Time(hour, 30), Time(hour + 1, 0), userId, false)]
      + HourSlots(hour + 1, date, userId)
  }

  /** The grid for `date` and `userId`: sixteen contiguous half-hour slots
      from 10:00 to 18:00, none of them blocked. */
  function GenerateTimeSlots(date: int, userId: int): (r: seq<Candidate>)
    ensures |r| == GridSize
    ensures r[0].startTime == Time(OpeningHour, 0)
    ensures r[GridSize - 1].endTime == Time(ClosingHour, 0)
    ensures forall i :: 0 <= i < |r| ==> Minutes(r[i].startTime) == OpeningHour * 60 + SlotMinutes * i
    ensures forall i :: 0 <= i < |r| ==> Minutes(r[i].endTime) == Minutes(r[i].startTime) + SlotMinutes
    ensures forall i :: 0 < i < |r| ==> r[i - 1].endTime == r[i].startTime
    ensures forall i :: 0 <= i < |r| ==> WellFormedTime(r[i].startTime) && WellFormedTime(r[i].endTime)
    ensures forall i :: 0 <= i < |r| ==> r[i].date == date && r[i].userId == userId && !r[i].isBlocked
  {
    HourSlots(OpeningHour, date, userId)
  }

  /** A half-hour slot starting on a half hour between 10:00 and 17:30 is a
      range the validator accepts. */
  lemma HalfHourSlotIsValid(c: Candidate, i: int)
    requires 0 <= i < GridSize
    requires Minutes(c.startTime) == OpeningHour * 60 + SlotMinutes * i
    requires Minutes(c.endTime) == Minutes(c.startTime) + SlotMinutes
    requires WellFormedTime(c.startTime) && WellFormedTime(c.endTime)
    ensures ValidTimeRange(c.startTime, c.endTime)
  {
    var start := Minutes(c.startTime);
    assert start % 30 == 0 by { assert start == 30 * (20 + i); }
    assert (start + 30) % 30 == 0 by { assert start + 30 == 30 * (21 + i); }
    ValidTimeRangeIsWorkingWindow(c.startTime, c.endTime);
  }

  /** Every grid slot is itself a range the validator accepts. */
  lemma GridSlotsAreValidRanges(date: int, userId: int)
    ensures forall i :: 0 <= i < GridSize ==>
      ValidTimeRange(GenerateTimeSlots(date, userId)[i].startTime, GenerateTimeSlots(date, userId)[i].endTime)
  {
    var grid := GenerateTimeSlots(date, userId);
    forall i | 0 <= i < GridSize
      ensures ValidTimeRange(grid[i].startTime, grid[i].endTime)
    {
      HalfHourSlotIsValid(grid[i], i);
    }
  }

  /** The grid's start times strictly increase. */
  lemma GridAscending(date: int, userId: int)
    ensures forall i, j :: 0 <= i < j < GridSize ==>
      Minutes(GenerateTimeSlots(date, userId)[i].startTime) < Minutes(GenerateTimeSlots(date, userId)[j].startTime)
  {
  }
}

=== FILE: overlap.dfy ===
/** The service's interval-conflict rule, on minutes of the day. The same rule
    appears twice in the service: as the query condition that looks for
    existing bookings, and as the filter that removes booked grid slots. */
module Overlap {

  /** An existing booking [existingStart, existingEnd] conflicts with a
      candidate [start, end] when it holds the candidate's first minute, or
      when it reaches the candidate's end from a point before that end. */
  predicate Overlaps(existingStart: int, existingEnd: int, start: int, end: int): (r: bool)
    ensures start < end && r ==> SharesMinute(existingStart, existingEnd, start, end)
    ensures start < end && !r && SharesMinute(existingStart, existingEnd, start, end) ==>
      StrictlyInside(existingStart, existingEnd, start, end)
  {
    || (existingStart <= start && existingEnd > start)
    || (existingStart < end && existingEnd >= end)
  }

  /** Reference definition: the half-open intervals [a, b) and [s, e) have a
      minute in common. */
  predicate SharesMinute(a: int, b: int, s: int, e: int)
  {
    a < b && s < e && a < e && s < b
  }

  /** The existing interval lies strictly inside the candidate, touching
      neither of its ends. */
  predicate StrictlyInside(a: int, b: int, s: int, e: int)
  {
    s < a && b < e
  }

  /** Intervals that only touch at a boundary do not conflict. */
  lemma TouchingDoesNotOverlap(a: int, b: int, s: int, e: int)
    requires s < e
    ensures b == s ==> !Overlaps(a, b, s, e)
    ensures a == e ==> !Overlaps(a, b, s, e)
  {
  }

  /** A non-empty interval conflicts with itself. */
  lemma IdenticalOverlaps(s: int, e: int)
    requires s < e
    ensures Overlaps(s, e, s, e)
  {
  }

  /** Exact characterisation: for a non-empty candidate the rule detects
      every shared minute except an existing booking strictly inside the
      candidate. In particular it is sound, and it is not complete. */
  lemma OverlapsCharacterised(a: int, b: int, s: int, e: int)
    requires s < e
    ensures Overlaps(a, b, s, e) ==> SharesMinute(a, b, s, e)
    ensures Overlaps(a, b, s, e) <==> SharesMinute(a, b, s, e) && !StrictlyInside(a, b, s, e)
  {
  }

  /** The incompleteness, concretely: 11:00-11:30 lies inside 10:00-12:00,
      shares minutes with it, and is not detected. */
  lemma InsideBookingNotDetected()
    ensures SharesMinute(660, 690, 600, 720)
    ensures !Overlaps(660, 690, 600, 720)
  {
  }

  /** Against a half-hour grid slot [s, s + 30] and a half-hour aligned
      booking, the rule fires exactly when the booking covers the slot. */
  lemma AlignedOverlapIsCover(a: int, b: int, s: int)
    requires a < b
    requires a % 30 == 0 && b % 30 == 0 && s % 30 == 0
    ensures Overlaps(a, b, s, s + 30) <==> a <= s && s + 30 <= b
  {
    if a <= s && s < b {
      assert (b - s) % 30 == 0;
      assert s + 30 <= b;
    }
    if a < s + 30 && b >= s + 30 {
      assert (s - a) % 30 == 0;
      assert a <= s;
    }
  }
}

=== FILE: properties.dfy ===
/** Properties of the booking service that relate several calls or hold for
    every input: invariants the writes keep, repeated requests, and the shape
    of the availability answer. */
module ServiceProperties {
  import opened Wrappers
  import opened Sequences
  import opened Calendar
  import opened Overlap
  import opened Store
  import opened Grid
  import opened Service

  /** The reservation `slot` covers the whole of candidate `c`. */
  predicate Covers(slot: TimeSlot, c: Candidate)
  {
    Minutes(slot.startTime) <= Minutes(c.startTime) && Minutes(c.endTime) <= Minutes(slot.endTime)
  }

  /** Start times strictly increase along `cs`. */
  predicate AscendingStarts(cs: seq<Candidate>)
  {
    forall i, j :: 0 <= i < j < |cs| ==> Minutes(cs[i].startTime) < Minutes(cs[j].startTime)
  }

  // ---------------------------------------------------------------- invariants

  /** A successful create keeps every record under its own fresh id, blocked
      and over a validated range. */
  lemma CreatePreservesWellFormed(store: Store, users: set<int>, now: Instant, req: CreateRequest)
    requires WellFormed(store)
    ensures WellFormed(Create(store, users, now, req).store)
  {
  }

  /** An update keeps the table well formed: the moved record passed the
      validator and keeps its id and blocked flag. */
  lemma UpdatePreservesWellFormed(store: Store, now: Instant, id: int, body: UpdateRequest)
    requires WellFormed(store)
    ensures WellFormed(UpdateTimeSlot(store, now, id, body).store)
  {
  }

  /** A delete keeps the table well formed. */
  lemma DeletePreservesWellFormed(store: Store, id: int, deletedBy: int)
    requires WellFormed(store)
    ensures WellFormed(DeleteTimeSlot(store, id, deletedBy).store)
  {
  }

  // -------------------------------------------------------------------- create

  /** The reservations that existed before a successful create neither hold
      its first minute nor reach its end from before it. */
  lemma CreateRespectsExistingBookings(store: Store, users: set<int>, now: Instant, req: CreateRequest)
    requires Create(store, users, now, req).result.Success?
    ensures forall slot :: slot in BlockedSlots(store, req.date, req.userId) ==>
      && !(Minutes(slot.startTime) <= Minutes(req.startTime) < Minutes(slot.endTime))
      && !(Minutes(slot.startTime) < Minutes(req.endTime) <= Minutes(slot.endTime))
  {
  }

  /** Sending the same create request again after it succeeded is rejected as
      an overlap: the new reservation conflicts with itself. */
  lemma CreateTwiceOverlaps(store: Store, users: set<int>, now: Instant, req: CreateRequest)
    requires Create(store, users, now, req).result.Success?
    ensures Create(Create(store, users, now, req).store, users, now, req).result == Failure(TimeSlotOverlap)
  {
    var r := Create(store, users, now, req);
    var slot := r.result.value;
    assert r.store.slots[slot.id] == slot;
    assert slot in BlockedSlots(r.store, req.date, req.userId);
    IdenticalOverlaps(Minutes(req.startTime), Minutes(req.endTime));
    assert Conflicts(BlockedSlots(r.store, req.date, req.userId), req.startTime, req.endTime);
  }

  // -------------------------------------------------------------------- update

  /** Moving a reservation to a start that lies inside its own current
      interval on the same date is rejected, because the overlap check sees
      the reservation itself. */
  lemma UpdateSelfOverlapRejected(store: Store, now: Instant, id: int, body: UpdateRequest)
    requires ValidTimeRange(body.startTime, body.endTime) && body.date >= now.day
    requires id in store.slots && MayModify(store.slots[id], body.createdBy)
    requires store.slots[id].isBlocked && body.date == store.slots[id].date
    requires Minutes(store.slots[id].startTime) <= Minutes(body.startTime) < Minutes(store.slots[id].endTime)
    ensures UpdateTimeSlot(store, now, id, body).result == Failure(TimeSlotOverlap)
  {
    var slot := store.slots[id];
    assert slot in BlockedSlots(store, body.date, slot.userId);
    assert Conflicts(BlockedSlots(store, body.date, slot.userId), body.startTime, body.endTime);
  }

  /** In particular, re-submitting a well-formed reservation's current date
      and times is always rejected once the earlier checks pass. */
  lemma UpdateInPlaceRejected(store: Store, now: Instant, id: int, actor: int)
    requires WellFormed(store) && id in store.slots && MayModify(store.slots[id], actor)
    requires store.slots[id].date >= now.day
    ensures UpdateTimeSlot(store, now, id,
              UpdateRequest(store.slots[id].date, store.slots[id].startTime, store.slots[id].endTime, actor)).result
            == Failure(TimeSlotOverlap)
  {
    var slot := store.slots[id];
    UpdateSelfOverlapRejected(store, now, id, UpdateRequest(slot.date, slot.startTime, slot.endTime, actor));
  }

  /** A successful update is visible through the lookup by id: the record
      carries the request's date, times and acting user and keeps its owner. */
  lemma FindAfterUpdate(store: Store, now: Instant, id: int, body: UpdateRequest)
    requires UpdateTimeSlot(store, now, id, body).result.Success?
    ensures FindById(UpdateTimeSlot(store, now, id, body).store, id)
         == Some(store.slots[id].(date := body.date, startTime := body.startTime,
                                  endTime := body.endTime, createdBy := body.createdBy))
  {
  }

  /** An update by the owner writes the owner into `createdBy`, so a creator
      who is not the owner may no longer update or delete the record. */
  lemma UpdateByOwnerRevokesCreator(store: Store, now: Instant, id: int, body: UpdateRequest)
    requires UpdateTimeSlot(store, now, id, body).result.Success?
    requires body.createdBy == store.slots[id].userId
    requires store.slots[id].createdBy != store.slots[id].userId
    ensures var after := UpdateTimeSlot(store, now, id, body).store;
            && !MayModify(after.slots[id], store.slots[id].createdBy)
            && DeleteTimeSlot(after, id, store.slots[id].createdBy).result == Failure(PermissionDenied)
  {
  }

  // -------------------------------------------------------------------- delete

  /** After a successful delete the lookup by id finds nothing. */
  lemma FindAfterDelete(store: Store, id: int, deletedBy: int)
    requires DeleteTimeSlot(store, id, deletedBy).result.Success?
    ensures FindById(DeleteTimeSlot(store, id, deletedBy).store, id) == None
  {
  }

  /** Once a delete has succeeded, deleting the same id again reports that it
      does not exist, whoever asks. */
  lemma DeleteTwiceNotFound(store: Store, id: int, deletedBy: int, again: int)
    requires DeleteTimeSlot(store, id, deletedBy).result.Success?
    ensures DeleteTimeSlot(DeleteTimeSlot(store, id, deletedBy).store, id, again).result == Failure(TimeSlotNotFound)
  {
  }

  /** A deleted id is never handed out again by a later create. */
  lemma DeletedIdNotReissued(store: Store, id: int, deletedBy: int, users: set<int>, now: Instant, req: CreateRequest)
    requires Valid(store)
    requires DeleteTimeSlot(store, id, deletedBy).result.Success?
    requires Create(DeleteTimeSlot(store, id, deletedBy).store, users, now, req).result.Success?
    ensures Create(DeleteTimeSlot(store, id, deletedBy).store, users, now, req).result.value.id != id
  {
  }

  // -------------------------------------------------------------- availability

  /** With nothing to conflict with, the filter keeps every candidate. */
  lemma {:induction false} FilterKeepsFree(cands: seq<Candidate>, blocked: set<TimeSlot>)
    requires forall c :: c in cands ==> !Conflicts(blocked, c.startTime, c.endTime)
    ensures FilterFree(cands, blocked) == cands
    decreases |cands|
  {
    if |cands| > 0 {
      assert cands[0] in cands;
      FilterKeepsFree(cands[1..], blocked);
    }
  }

  /** The filter keeps every copy of a free candidate and no copy of a
      conflicting one, as `Array.prototype.filter` does. */
  lemma {:induction false} FilterFreeCounts(cands: seq<Candidate>, blocked: set<TimeSlot>, c: Candidate)
    ensures multiset(FilterFree(cands, blocked))[c] ==
            if Conflicts(blocked, c.startTime, c.endTime) then 0 else multiset(cands)[c]
    decreases |cands|
  {
    if |cands| > 0 {
      FilterFreeCounts(cands[1..], blocked, c);
      assert cands == [cands[0]] + cands[1..];
    }
  }

  /** The filter distributes over concatenation. */
  lemma {:induction false} FilterAppend(a: seq<Candidate>, b: seq<Candidate>, blocked: set<TimeSlot>)
    ensures FilterFree(a + b, blocked) == FilterFree(a, blocked) + FilterFree(b, blocked)
    decreases |a|
  {
    if |a| == 0 {
      assert a + b == b;
    } else {
      assert (a + b)[0] == a[0];
      assert (a + b)[1..] == a[1..] + b;
      FilterAppend(a[1..], b, blocked);
    }
  }

  /** With no reservations for that user and day, all sixteen slots are free. */
  lemma AvailableWithoutBookings(store: Store, users: set<int>, date: int, userId: int)
    requires userId in users
    requires BlockedSlots(store, date, userId) == {}
    ensures GetAvailableSlots(store, users, date, userId) == Success(GenerateTimeSlots(date, userId))
    ensures |GetAvailableSlots(store, users, date, userId).value| == GridSize
  {
    FilterKeepsFree(GenerateTimeSlots(date, userId), {});
  }

  /** A subsequence of a sequence with increasing starts has increasing starts. */
  lemma {:induction false} SubsequenceAscending(a: seq<Candidate>, b: seq<Candidate>)
    requires IsSubsequence(a, b) && AscendingStarts(b)
    ensures AscendingStarts(a)
    decreases |b|
  {
    if |a| > 0 {
      if a[0] == b[0] && IsSubsequence(a[1..], b[1..]) {
        SubsequenceAscending(a[1..], b[1..]);
        SubsequenceMembers(a[1..], b[1..]);
        forall i, j | 0 <= i < j < |a|
          ensures Minutes(a[i].startTime) < Minutes(a[j].startTime)
        {
          assert a[j] == a[1..][j - 1];
          if i > 0 {
            assert a[i] == a[1..][i - 1];
          } else {
            assert a[j] in a[1..];
            assert a[j] in b[1..];
            var k :| 0 <= k < |b[1..]| && b[1..][k] == a[j];
            assert b[k + 1] == a[j];
          }
        }
      } else {
        SubsequenceAscending(a, b[1..]);
      }
    }
  }

  /** The free slots come back in ascending order of start time. */
  lemma AvailableAscending(store: Store, users: set<int>, date: int, userId: int)
    requires userId in users
    ensures AscendingStarts(GetAvailableSlots(store, users, date, userId).value)
  {
    var grid := GenerateTimeSlots(date, userId);
    assert AscendingStarts(grid);
    SubsequenceAscending(GetAvailableSlots(store, users, date, userId).value, grid);
  }

  /** When every reservation of the user that day is a validated range, a grid
      slot is withheld exactly when one reservation covers it. */
  lemma AvailableIsUncovered(store: Store, users: set<int>, date: int, userId: int)
    requires userId in users
    requires forall slot :: slot in BlockedSlots(store, date, userId) ==> ValidTimeRange(slot.startTime, slot.endTime)
    ensures forall i :: 0 <= i < GridSize ==>
      (GenerateTimeSlots(date, userId)[i] in GetAvailableSlots(store, users, date, userId).value <==>
       !exists slot :: slot in BlockedSlots(store, date, userId) && Covers(slot, GenerateTimeSlots(date, userId)[i]))
  {
    var grid := GenerateTimeSlots(date, userId);
    var blocked := BlockedSlots(store, date, userId);
    forall i | 0 <= i < GridSize
      ensures Conflicts(blocked, grid[i].startTime, grid[i].endTime) <==>
              exists slot :: slot in blocked && Covers(slot, grid[i])
    {
      var c := grid[i];
      assert Minutes(c.startTime) % 30 == 0 by {
        assert Minutes(c.startTime) == 30 * (20 + i);
      }
      forall slot | slot in blocked
        ensures Overlaps(Minutes(slot.startTime), Minutes(slot.endTime), Minutes(c.startTime), Minutes(c.endTime))
                <==> Covers(slot, c)
      {
        AlignedOverlapIsCover(Minutes(slot.startTime), Minutes(slot.endTime), Minutes(c.startTime));
      }
    }
  }

  /** After a successful create, no grid slot of that user and day whose start
      lies inside the new reservation is offered any more. */
  lemma CreateWithdrawsCoveredSlots(store: Store, users: set<int>, now: Instant, req: CreateRequest)
    requires Create(store, users, now, req).result.Success?
    ensures forall c :: c in GenerateTimeSlots(req.date, req.userId) &&
                        Minutes(req.startTime) <= Minutes(c.startTime) < Minutes(req.endTime) ==>
      c !in GetAvailableSlots(Create(store, users, now, req).store, users, req.date, req.userId).value
  {
    var r := Create(store, users, now, req);
    var slot := r.result.value;
    assert r.store.slots[slot.id] == slot;
    assert slot in BlockedSlots(r.store, req.date, req.userId);
  }

  /** A create for another user or another day leaves this user's free slots
      on this day as they were. */
  lemma CreateElsewhereKeepsAvailability(
    store: Store, users: set<int>, now: Instant, req: CreateRequest, date: int, userId: int)
    requires Valid(store)
    requires Create(store, users, now, req).result.Success?
    requires req.date != date || req.userId != userId
    ensures GetAvailableSlots(Create(store, users, now, req).store, users, date, userId)
         == GetAvailableSlots(store, users, date, userId)
  {
    var r := Create(store, users, now, req);
    var slot := r.result.value;
    assert r.store == Store(store.slots[slot.id := slot], store.nextId + 1);
    assert !BookedFor(slot, date, userId);
    BlockedSlotsInsert(store, slot.id, slot, store.nextId + 1, date, userId);
    assert BlockedSlots(r.store, date, userId) == BlockedSlots(store, date, userId);
  }
}

=== FILE: scenarios.dfy ===
/** Concrete runs of the booking service: the boundary cases of the overlap
    rule, a double booking the rule lets through, and a day with two
    reservations. */
module Scenarios {
  import opened Wrappers
  import opened Calendar
  import opened Overlap
  import opened Store
  import opened Grid
  import opened Service
  import opened ServiceProperties

  /** An arbitrary day number, used as the booking date and as "today". */
  const Day: int := 47482
  const Alice: int := 1
  const Users: set<int> := {Alice}
  const Morning: Instant := Instant(Day, 9 * 3_600_000)

  /** 10:00-10:30 then 10:30-11:00 only touch; 10:00-10:30 then 10:15-10:45 overlap. */
  lemma OverlapBoundaryExamples()
    ensures !Overlaps(Minutes(Time(10, 0)), Minutes(Time(10, 30)), Minutes(Time(10, 30)), Minutes(Time(11, 0)))
    ensures Overlaps(Minutes(Time(10, 0)), Minutes(Time(10, 30)), Minutes(Time(10, 15)), Minutes(Time(10, 45)))
  {
  }

  /** A start before opening time, and a booking for yesterday, are refused. */
  lemma RejectedRequests()
    ensures Create(EmptyStore, Users, Morning, CreateRequest(Day, Time(9, 30), Time(10, 0), Alice, Alice)).result
            == Failure(InvalidTimeSlot)
    ensures Create(EmptyStore, Users, Morning, CreateRequest(Day - 1, Time(10, 0), Time(10, 30), Alice, Alice)).result
            == Failure(PastDateBooking)
  {
  }

  /** Booking 11:00-11:30 and then 10:00-12:00 for the same user and day both
      succeed: the table held no two sharing a minute before the second call
      and holds two afterwards. Pairwise disjointness is not an invariant of
      the service. */
  lemma DoubleBookingAccepted()
    ensures var first := Create(EmptyStore, Users, Morning, CreateRequest(Day, Time(11, 0), Time(11, 30), Alice, Alice));
            var second := Create(first.store, Users, Morning, CreateRequest(Day, Time(10, 0), Time(12, 0), Alice, Alice));
            && first.result.Success?
            && BookingsDisjoint(first.store)
            && second.result.Success?
            && !BookingsDisjoint(second.store)
  {
    var first := Create(EmptyStore, Users, Morning, CreateRequest(Day, Time(11, 0), Time(11, 30), Alice, Alice));
    var inner := TimeSlot(1, Day, Time(11, 0), Time(11, 30), true, Alice, Alice);
    assert first.store == Store(map[1 := inner], 2);
    assert BlockedSlots(first.store, Day, Alice) == {inner};
    var second := Create(first.store, Users, Morning, CreateRequest(Day, Time(10, 0), Time(12, 0), Alice, Alice));
    assert second.store.slots[2] == TimeSlot(2, Day, Time(10, 0), Time(12, 0), true, Alice, Alice);
    assert second.store.slots[1] == inner;
  }

  const EarlySlot: TimeSlot := TimeSlot(1, Day, Time(10, 0), Time(10, 30), true, Alice, Alice)
  const AfternoonSlot: TimeSlot := TimeSlot(2, Day, Time(14, 0), Time(14, 30), true, Alice, Alice)

  /** The two creates store the two reservations under ids 1 and 2. */
  lemma TwoBookingsStored()
    ensures var first := Create(EmptyStore, Users, Morning, CreateRequest(Day, Time(10, 0), Time(10, 30), Alice, Alice));
            var second := Create(first.store, Users, Morning, CreateRequest(Day, Time(14, 0), Time(14, 30), Alice, Alice));
            && first.result.Success? && second.result.Success?
            && BlockedSlots(second.store, Day, Alice) == {EarlySlot, AfternoonSlot}
  {
    var first := Create(EmptyStore, Users, Morning, CreateRequest(Day, Time(10, 0), Time(10, 30), Alice, Alice));
    assert first.store == Store(map[1 := EarlySlot], 2);
    assert BlockedSlots(first.store, Day, Alice) == {EarlySlot};
    var second := Create(first.store, Users, Morning, CreateRequest(Day, Time(14, 0), Time(14, 30), Alice, Alice));
    assert second.store == Store(map[1 := EarlySlot, 2 := AfternoonSlot], 3);
  }

  /** A half-hour slot away from both reservations conflicts with neither. */
  lemma FarSlotIsFree(c: Candidate)
    requires Minutes(c.endTime) == Minutes(c.startTime) + 30
    requires 630 <= Minutes(c.startTime) <= 810 || 870 <= Minutes(c.startTime) <= 1050
    ensures !Conflicts({EarlySlot, AfternoonSlot}, c.startTime, c.endTime)
  {
  }

  /** The half-hour grid shape, as the generator's contract states it. */
  predicate IsHalfHourGrid(grid: seq<Candidate>)
  {
    && |grid| == GridSize
    && (forall i :: 0 <= i < |grid| ==> Minutes(grid[i].startTime) == 600 + 30 * i)
    && (forall i :: 0 <= i < |grid| ==> Minutes(grid[i].endTime) == Minutes(grid[i].startTime) + 30)
  }

  /** A run of grid slots between the two reservations is kept whole. */
  lemma FarRunKept(grid: seq<Candidate>, lo: int, hi: int)
    requires IsHalfHourGrid(grid)
    requires (lo == 1 && hi == 8) || (lo == 9 && hi == 16)
    ensures FilterFree(grid[lo..hi], {EarlySlot, AfternoonSlot}) == grid[lo..hi]
  {
    forall c | c in grid[lo..hi]
      ensures !Conflicts({EarlySlot, AfternoonSlot}, c.startTime, c.endTime)
    {
      var i :| lo <= i < hi && grid[i] == c;
      FarSlotIsFree(c);
    }
    FilterKeepsFree(grid[lo..hi], {EarlySlot, AfternoonSlot});
  }

  /** The first and the ninth grid slot are each dropped. */
  lemma BookedSlotsDropped(grid: seq<Candidate>)
    requires IsHalfHourGrid(grid)
    ensures FilterFree([grid[0]], {EarlySlot, AfternoonSlot}) == []
    ensures FilterFree([grid[8]], {EarlySlot, AfternoonSlot}) == []
  {
    var blocked := {EarlySlot, AfternoonSlot};
    assert Conflicts(blocked, grid[0].startTime, grid[0].endTime) by {
      assert Overlaps(600, 630, Minutes(grid[0].startTime), Minutes(grid[0].endTime));
    }
    assert Conflicts(blocked, grid[8].startTime, grid[8].endTime) by {
      assert Overlaps(840, 870, Minutes(grid[8].startTime), Minutes(grid[8].endTime));
    }
  }

  /** Filtering four consecutive pieces, of which the first and third are
      dropped whole and the others kept whole, leaves the second and fourth. */
  lemma FilterPieces(first: seq<Candidate>, early: seq<Candidate>, ninth: seq<Candidate>, late: seq<Candidate>,
                     blocked: set<TimeSlot>)
    requires FilterFree(first, blocked) == [] && FilterFree(ninth, blocked) == []
    requires FilterFree(early, blocked) == early && FilterFree(late, blocked) == late
    ensures FilterFree(first + early + ninth + late, blocked) == early + late
  {
    FilterAppend(first + early + ninth, late, blocked);
    FilterAppend(first + early, ninth, blocked);
    FilterAppend(first, early, blocked);
    assert [] + early + [] == early;
  }

  /** Filtering a grid against the two reservations drops the first and the
      ninth slot. */
  lemma FilterTwoBookings(grid: seq<Candidate>)
    requires IsHalfHourGrid(grid)
    ensures FilterFree(grid, {EarlySlot, AfternoonSlot}) == grid[1..8] + grid[9..]
  {
    var first, early, ninth, late := [grid[0]], grid[1..8], [grid[8]], grid[9..16];
    assert grid == first + early + ninth + late;
    assert grid[9..] == late;
    BookedSlotsDropped(grid);
    FarRunKept(grid, 1, 8);
    FarRunKept(grid, 9, 16);
    FilterPieces(first, early, ninth, late, {EarlySlot, AfternoonSlot});
  }

  /** After booking 10:00-10:30 and 14:00-14:30, fourteen of the sixteen grid
      slots remain, in order: all but the first and the ninth. */
  lemma TwoBookingsLeaveFourteen()
    ensures var first := Create(EmptyStore, Users, Morning, CreateRequest(Day, Time(10, 0), Time(10, 30), Alice, Alice));
            var second := Create(first.store, Users, Morning, CreateRequest(Day, Time(14, 0), Time(14, 30), Alice, Alice));
            var grid := GenerateTimeSlots(Day, Alice);
            var free := GetAvailableSlots(second.store, Users, Day, Alice);
            && free == Success(grid[1..8] + grid[9..])
            && |free.value| == 14
  {
    TwoBookingsStored();
    FilterTwoBookings(GenerateTimeSlots(Day, Alice));
  }
}

=== FILE: sequences.dfy ===
/** Facts about order-preserving subsequences, used for the availability filter. */
module Sequences {

  /** `a` can be obtained from `b` by deleting elements, keeping the order of the rest. */
  predicate IsSubsequence<T(==)>(a: seq<T>, b: seq<T>)
    decreases |b|
  {
    |a| == 0 ||
    (|b| > 0 &&
      ((a[0] == b[0] && IsSubsequence(a[1..], b[1..])) || IsSubsequence(a, b[1..])))
  }

  /** Every element of a subsequence occurs in the sequence it was taken from. */
  lemma {:induction false} SubsequenceMembers<T>(a: seq<T>, b: seq<T>)
    requires IsSubsequence(a, b)
    ensures forall x :: x in a ==> x in b
    decreases |b|
  {
    if |a| > 0 {
      if a[0] == b[0] && IsSubsequence(a[1..], b[1..]) {
        SubsequenceMembers(a[1..], b[1..]);
        assert a == [a[0]] + a[1..];
        assert b == [b[0]] + b[1..];
      } else {
        SubsequenceMembers(a, b[1..]);
        assert b == [b[0]] + b[1..];
      }
    }
  }
}

=== FILE: service.dfy ===
/** The booking service: create, update and delete a reservation, and list
    the free slots of a user's day. Each mutating operation runs its checks in
    a fixed order and writes only when all of them pass. */
module Service {
  import opened Wrappers
  import opened Sequences
  import opened Calendar
  import opened Overlap
  import opened Store
  import opened Grid

  /** The rejections the service raises. */
  datatype Error =
    | InvalidTimeSlot
    | UserNotFound
    | PastDateBooking
    | TimeSlotOverlap
    | TimeSlotNotFound
    | PermissionDenied

  /** The table after a call, and what the call returned or raised. */
  datatype Reply<+T> = Reply(store: Store, result: Result<T, Error>)

  /** The fields of a create request. */
  datatype CreateRequest = CreateRequest(date: int, startTime: Time, endTime: Time, userId: int, createdBy: int)

  /** The fields of an update request; `createdBy` is the acting user. */
  datatype UpdateRequest = UpdateRequest(date: int, startTime: Time, endTime: Time, createdBy: int)

  /** `actor` may change or remove `slot`: it is the slot's creator or owner. */
  predicate MayModify(slot: TimeSlot, actor: int)
  {
    actor == slot.createdBy || actor == slot.userId
  }

  /** Book a slot. The checks run in order (time range, user exists, date,
      overlap) and the first that fails decides the error; on success one new
      reservation is stored under the next id of the sequence. */
  function Create(store: Store, users: set<int>, now: Instant, req: CreateRequest): (r: Reply<TimeSlot>)
    ensures r.result.Failure? ==> r.store == store
    ensures !ValidTimeRange(req.startTime, req.endTime) ==> r.result == Failure(InvalidTimeSlot)
    ensures ValidTimeRange(req.startTime, req.endTime) && req.userId !in users ==>
      r.result == Failure(UserNotFound)
    ensures ValidTimeRange(req.startTime, req.endTime) && req.userId in users && req.date < now.day ==>
      r.result == Failure(PastDateBooking)
    ensures (&& ValidTimeRange(req.startTime, req.endTime) && req.userId in users && req.date >= now.day
             && Conflicts(BlockedSlots(store, req.date, req.userId), req.startTime, req.endTime)) ==>
      r.result == Failure(TimeSlotOverlap)
    ensures r.result.Success? <==>
      && ValidTimeRange(req.startTime, req.endTime)
      && req.userId in users
      && req.date >= now.day
      && !Conflicts(BlockedSlots(store, req.date, req.userId), req.startTime, req.endTime)
    ensures r.result.Success? ==>
      var slot := r.result.value;
      && slot.date == req.date && slot.startTime == req.startTime && slot.endTime == req.endTime
      && slot.userId == req.userId && slot.createdBy == req.createdBy && slot.isBlocked
      && (Valid(store) ==> slot.id !in store.slots)
      && r.store.slots.Keys == store.slots.Keys + {slot.id}
      && FindById(r.store, slot.id) == Some(slot)
      && (forall id :: id in store.slots && id != slot.id ==> r.store.slots[id] == store.slots[id])
  {
    if !ValidTimeRange(req.startTime, req.endTime) then
      Reply(store, Failure(InvalidTimeSlot))
    else if req.userId !in users then
      Reply(store, Failure(UserNotFound))
    else if !ValidBookingDate(req.date, now) then
      Reply(store, Failure(PastDateBooking))
    else if Conflicts(BlockedSlots(store, req.date, req.userId), req.startTime, req.endTime) then
      Reply(store, Failure(TimeSlotOverlap))
    else
      var slot := TimeSlot(store.nextId, req.date, req.startTime, req.endTime, true, req.userId, req.createdBy);
      Reply(Store(store.slots[slot.id := slot], store.nextId + 1), Success(slot))
  }

  /** Move a reservation. The checks run in order (time range, date, slot
      exists, actor may modify it, overlap) and the first that fails decides
      the error. The overlap check looks at all of the owner's reservations on
      the new date, the one being moved included. On success the request's
      date, times and acting user overwrite the record's. */
  function UpdateTimeSlot(store: Store, now: Instant, id: int, body: UpdateRequest): (r: Reply<()>)
    ensures r.result.Failure? ==> r.store == store
    ensures !ValidTimeRange(body.startTime, body.endTime) ==> r.result == Failure(InvalidTimeSlot)
    ensures ValidTimeRange(body.startTime, body.endTime) && body.date < now.day ==>
      r.result == Failure(PastDateBooking)
    ensures ValidTimeRange(body.startTime, body.endTime) && body.date >= now.day && id !in store.slots ==>
      r.result == Failure(TimeSlotNotFound)
    ensures (&& ValidTimeRange(body.startTime, body.endTime) && body.date >= now.day && id in store.slots
             && !MayModify(store.slots[id], body.createdBy)) ==>
      r.result == Failure(PermissionDenied)
    ensures (&& ValidTimeRange(body.startTime, body.endTime) && body.date >= now.day && id in store.slots
             && MayModify(store.slots[id], body.createdBy)
             && Conflicts(BlockedSlots(store, body.date, store.slots[id].userId), body.startTime, body.endTime)) ==>
      r.result == Failure(TimeSlotOverlap)
    ensures r.result.Success? <==>
      && ValidTimeRange(body.startTime, body.endTime)
      && body.date >= now.day
      && id in store.slots
      && MayModify(store.slots[id], body.createdBy)
      && !Conflicts(BlockedSlots(store, body.date, store.slots[id].userId), body.startTime, body.endTime)
    ensures r.result.Success? ==>
      && r.store.nextId == store.nextId
      && r.store.slots.Keys == store.slots.Keys
      && (forall k :: k in store.slots && k != id ==> r.store.slots[k] == store.slots[k])
      && r.store.slots[id].date == body.date
      && r.store.slots[id].startTime == body.startTime
      && r.store.slots[id].endTime == body.endTime
      && r.store.slots[id].createdBy == body.createdBy
      && r.store.slots[id].id == store.slots[id].id
      && r.store.slots[id].userId == store.slots[id].userId
      && r.store.slots[id].isBlocked == store.slots[id].isBlocked
  {
    if !ValidTimeRange(body.startTime, body.endTime) then
      Reply(store, Failure(InvalidTimeSlot))
    else if !ValidBookingDate(body.date, now) then
      Reply(store, Failure(PastDateBooking))
    else
      match FindById(store, id)
      case None => Reply(store, Failure(TimeSlotNotFound))
      case Some(slot) =>
        if !MayModify(slot, body.createdBy) then
          Reply(store, Failure(PermissionDenied))
        else if Conflicts(BlockedSlots(store, body.date, slot.userId), body.startTime, body.endTime) then
          Reply(store, Failure(TimeSlotOverlap))
        else
          var updated := slot.(date := body.date, startTime := body.startTime,
                               endTime := body.endTime, createdBy := body.createdBy);
          Reply(store.(slots := store.slots[id := updated]), Success(()))
  }

  /** Remove a reservation: it must exist, and the actor must be its creator
      or its owner. */
  function DeleteTimeSlot(store: Store, id: int, deletedBy: int): (r: Reply<()>)
    ensures r.result.Failure? ==> r.store == store
    ensures id !in store.slots ==> r.result == Failure(TimeSlotNotFound)
    ensures id in store.slots && !MayModify(store.slots[id], deletedBy) ==> r.result == Failure(PermissionDenied)
    ensures r.result.Success? <==> id in store.slots && MayModify(store.slots[id], deletedBy)
    ensures r.result.Success? ==>
      && r.store.slots.Keys == store.slots.Keys - {id}
      && r.store.nextId == store.nextId
      && (forall k :: k in r.store.slots ==> r.store.slots[k] == store.slots[k])
  {
    match FindById(store, id)
    case None => Reply(store, Failure(TimeSlotNotFound))
    case Some(slot) =>
      if !MayModify(slot, deletedBy) then
        Reply(store, Failure(PermissionDenied))
      else
        Reply(store.(slots := store.slots - {id}), Success(()))
  }

  /** The candidates no reservation in `blocked` conflicts with, in their
      original order. */
  function FilterFree(cands: seq<Candidate>, blocked: set<TimeSlot>): (r: seq<Candidate>)
    ensures forall c :: c in r <==> c in cands && !Conflicts(blocked, c.startTime, c.endTime)
    ensures IsSubsequence(r, cands)
  {
    if |cands| == 0 then
      []
    else
      var rest := FilterFree(cands[1..], blocked);
      assert cands == [cands[0]] + cands[1..];
      if Conflicts(blocked, cands[0].startTime, cands[0].endTime) then
        rest
      else
        [cands[0]] + rest
  }

  /** The free half-hour slots of `userId` on `date`: the grid minus every
      slot one of the user's reservations that day conflicts with. An unknown
      user is rejected; the date itself is not checked. */
  function GetAvailableSlots(store: Store, users: set<int>, date: int, userId: int): (r: Result<seq<Candidate>, Error>)
    ensures userId !in users ==> r == Failure(UserNotFound)
    ensures userId in users ==> r.Success?
    ensures r.Success? ==>
      && IsSubsequence(r.value, GenerateTimeSlots(date, userId))
      && forall c :: c in r.value <==>
           c in GenerateTimeSlots(date, userId) && !Conflicts(BlockedSlots(store, date, userId), c.startTime, c.endTime)
  {
    if userId !in users then
      Failure(UserNotFound)
    else
      var allSlots := GenerateTimeSlots(date, userId);
      var blockedSlots := BlockedSlots(store, date, userId);
      Success(FilterFree(allSlots, blockedSlots))
  }
}

=== FILE: store.dfy ===
/** The persisted time-slot records and the repository the service reads and
    writes, as an immutable value: a map from id to record plus the id
    sequence's next value. */
module Store {
  import opened Wrappers
  import opened Calendar
  import opened Overlap

  /** A persisted booking, with the fields of the time-slot entity. */
  datatype TimeSlot = TimeSlot(
    id: int,
    date: int,
    startTime: Time,
    endTime: Time,
    isBlocked: bool,
    userId: int,
    createdBy: int)

  /** The time-slot table. Ids come from a sequence that starts at 1 and
      only moves forward, so a deleted id is never handed out again. */
  datatype Store = Store(slots: map<int, TimeSlot>, nextId: int)

  const EmptyStore: Store := Store(map[], 1)

  /** Every record sits under its own id, and every id was drawn from the
      sequence before its current value. */
  predicate Valid(store: Store)
  {
    && store.nextId >= 1
    && forall id :: id in store.slots ==> 1 <= id < store.nextId && store.slots[id].id == id
  }

  /** The invariant the service's own writes keep: a valid table whose
      records are all reservations over validated time ranges. */
  predicate WellFormed(store: Store)
  {
    && Valid(store)
    && forall id :: id in store.slots ==>
         store.slots[id].isBlocked && ValidTimeRange(store.slots[id].startTime, store.slots[id].endTime)
  }

  /** `findOne({ where: { id } })`. */
  function FindById(store: Store, id: int): Option<TimeSlot>
  {
    if id in store.slots then Some(store.slots[id]) else None
  }

  /** A reservation of `userId` on `date`: what the repository filter
      `{ date, userId, isBlocked: true }` matches. */
  predicate BookedFor(slot: TimeSlot, date: int, userId: int)
  {
    slot.date == date && slot.userId == userId && slot.isBlocked
  }

  /** The reservations of one user on one day. */
  function BlockedSlots(store: Store, date: int, userId: int): set<TimeSlot>
  {
    set id | id in store.slots && BookedFor(store.slots[id], date, userId) :: store.slots[id]
  }

  /** Storing a record under a new id adds it to the query's answer when it is
      a reservation of that user on that day, and changes nothing else. */
  lemma BlockedSlotsInsert(store: Store, k: int, slot: TimeSlot, nextId: int, date: int, userId: int)
    requires k !in store.slots
    ensures BlockedSlots(Store(store.slots[k := slot], nextId), date, userId)
         == BlockedSlots(store, date, userId) + (if BookedFor(slot, date, userId) then {slot} else {})
  {
    var after := Store(store.slots[k := slot], nextId);
    forall s | s in BlockedSlots(after, date, userId)
      ensures s in BlockedSlots(store, date, userId) + (if BookedFor(slot, date, userId) then {slot} else {})
    {
      var j :| j in after.slots && BookedFor(after.slots[j], date, userId) && after.slots[j] == s;
      if j != k {
        assert store.slots[j] == s;
      }
    }
    forall s | s in BlockedSlots(store, date, userId)
      ensures s in BlockedSlots(after, date, userId)
    {
      var j :| j in store.slots && BookedFor(store.slots[j], date, userId) && store.slots[j] == s;
      assert after.slots[j] == s;
    }
    if BookedFor(slot, date, userId) {
      assert after.slots[k] == slot;
    }
  }

  /** Some reservation in `blocked` conflicts with [start, end] under the
      service's overlap rule, the reservation taking the "existing" role. */
  predicate Conflicts(blocked: set<TimeSlot>, start: Time, end: Time)
  {
    exists slot :: slot in blocked &&
      Overlaps(Minutes(slot.startTime), Minutes(slot.endTime), Minutes(start), Minutes(end))
  }

  /** The textbook invariant: no two reservations of one user on one day share
      a minute. The service does not maintain it. */
  predicate BookingsDisjoint(store: Store)
  {
    forall i, j ::
      i in store.slots && j in store.slots && i != j &&
      BookedFor(store.slots[i], store.slots[j].date, store.slots[j].userId) && store.slots[j].isBlocked ==>
      !SharesMinute(Minutes(store.slots[i].startTime), Minutes(store.slots[i].endTime),
                    Minutes(store.slots[j].startTime), Minutes(store.slots[j].endTime))
  }
}

=== FILE: wrappers.dfy ===
/** Failure-carrying return types shared by the booking model. */
module Wrappers {

  /** A value that may be absent, as a repository lookup by id returns. */
  datatype Option<+T> = None | Some(value: T)

  /** Either a computed value or the error the service raises instead. */
  datatype Result<+T, +E> = Success(value: T) | Failure(error: E)
}
